=== FILE: README.md ===
# Fractional Working Index: weights, preferences and composite score

This project models the small computational core of the Fractional Working Index
dashboard in Dafny. The dashboard shows a composite market-health score built
from three weighted sub-indices: Demand, Supply and Culture. The model covers:

- the user-preferences store: the defaults, the shallow-merge partial update,
  `updateWeights` with its rescale-when-drifted rule, reset, and hydration
  from an optional stored record;
- the settings panel's weight slider handler. It moves one weight and lets the
  other two absorb the change in proportion to their shares, clamped at 0. The
  model also covers the panel's alert, compact-mode and time-range toggles and
  its slider domains;
- `calcComposite`: a weighted sum rounded half-up to one decimal;
- the mock dataset `FWI_DATA`, and the second copy of `calcComposite` that the
  hero widget uses.

Numbers are exact Dafny `real`s in place of JavaScript doubles. `Math.round(x)`
is modelled as `floor(x + 1/2)`, the nearest integer with halves going up. The
store is a value. Each store operation is a pure function from old preferences
to new ones.

Modules:

- `Wrappers` (`wrappers.dfy`): `Option`, for absent fields and absent records.
  It has no source file of its own; it stands for TypeScript's optional fields.
- `Weights` (`weights.dfy`): `Key`, `WeightSet`, `Total`, and `Normalize`,
  which is the arithmetic of `updateWeights`. It is split out of
  `src/hooks/useUserPreferences.ts` so that the settings panel and the
  composite calculator can share it.
- `PreferencesStore` (`preferences.dfy`): the rest of
  `src/hooks/useUserPreferences.ts`: `Preferences`, the partial record
  `Update`, `Defaults`, `Merge`, `UpdateWeights`, `Reset`, `Load` and `Persist`.
- `Settings` (`settings.dfy`, `src/components/SettingsSheet.tsx`): `handleWeightChange` as `Redistribute` plus
  `HandleWeightChange`, the toggles, the slider domains, and a session of panel
  interactions with the invariant the session keeps.
- `Composite` (`composite.dfy`, `src/lib/types.ts`): `TodayData`, `JsRound` and `CalcComposite`.
- `Dashboard` (`dashboard.dfy`, `src/pages/Index.tsx`): the `FWI_DATA` constant and the calculator in
  `Index.tsx`.

Main results:

- When it rescales, normalization gives a total of exactly 1. It keeps weights
  within 0.01 of a total of 1 as they are, and it is idempotent.
- Merges change only the fields that are supplied.
- When the other two weights total more than 0 and no clamp fires,
  redistribution keeps the total and the ratio of the two other weights.
- For non-negative weights whose other two weights total more than 0, no clamp
  fires exactly when the new value is at most the old total. (When the other two
  are 0 they are left alone and nothing clamps, whatever the new value.)
- The panel keeps its state consistent. From any state with non-negative weights
  totalling exactly 1, every slider move stays within a slider's domain (at most
  0.8), so redistribution never clamps and the total stays exactly 1.
- In a session started from the defaults all three weights stay strictly
  positive, and every slider move stores exactly the redistributed candidate:
  `updateWeights` never rescales. (From a state such as (1, 0, 0), which is
  consistent but not reachable from the defaults, a drag of the key holding the whole weight is rescaled back; a drag of another
  key is stored as it is.)
- The composite is the unique one-decimal number within 0.05 of the weighted sum
  (ties go up). It lies in 0..100 for scores in 0..100 under non-negative weights
  totalling exactly 1. Weights merely within the 0.01 tolerance can push it past
  100: (0.4, 0.4, 0.205), 0.005 away from a total of 1, with three scores of 100
  gives 100.5
  (`CompositeAboveRangeWithinTolerance`).

The hero widget scores the mock day at 66.4. The constant's hard-coded
`today.overall` is 68.4. Nothing in the source reconciles the two, and the model
assumes no relation between them.

## Model

| member | source | states |
|---|---|---|
| `Weights.Normalize` | src/hooks/useUserPreferences.ts:53-57 | Within 0.01 of a total of 1, the candidate weights are kept as they are. Otherwise each stored weight times the old total is the old weight, and the stored weights total exactly 1. Either way the result is within tolerance. A zero total is excluded because the source would produce NaN or ±Infinity weights. |
| `Weights.Total` | src/hooks/useUserPreferences.ts:54 | `total`: the sum of the three weights (the quantity `Normalize`, `RedistributePreservesTotal` and `Consistent` speak about). |
| `Weights.WithinTolerance` | src/hooks/useUserPreferences.ts:55 | The negation of `Math.abs(total - 1) > 0.01`: the total is within 0.01 of 1, exactly the fixed points of `Normalize` (`NormalizeFixedPoints`). |
| `Weights.WeightSet.With` | src/components/SettingsSheet.tsx:29 | `{ ...weights, [key]: newValue }`: the given key reads back the new value and every other key keeps its old value. |
| `Weights.NormalizeIdempotent` | src/hooks/useUserPreferences.ts:53-59 | A second normalization of the stored weights changes nothing. |
| `Weights.NormalizeFixedPoints` | src/hooks/useUserPreferences.ts:54-57 | Normalization leaves a weight set unchanged if and only if its total is within 0.01 of 1. |
| `Weights.NormalizeNonNegative` | src/hooks/useUserPreferences.ts:54-57 | Non-negative candidate weights with a positive total give non-negative stored weights. |
| `Weights.NormalizeKeepsRatios` | src/hooks/useUserPreferences.ts:56 | The stored weights keep every pairwise ratio of the candidate weights. |
| `Weights.NormalizeUnitTotal` | src/hooks/useUserPreferences.ts:55-57 | Weights that total exactly 1 are stored unchanged. |
| `PreferencesStore.DefaultsWellFormed` | src/hooks/useUserPreferences.ts:11-17 | The defaults are weights 0.4/0.4/0.2 (non-negative, total exactly 1), alerts on with threshold 5, the 12-month range, compact mode off, and three watched roles. |
| `PreferencesStore.Defaults` | src/hooks/useUserPreferences.ts:11-17 | The default preferences: weights 0.4/0.4/0.2, three watched roles, alerts on at threshold 5, the last 12 months, compact mode off (facts stated by `DefaultsWellFormed`). |
| `PreferencesStore.Merge` | src/hooks/useUserPreferences.ts:49-51 | Each field present in the update replaces the old field wholesale; `alerts` is replaced as a whole record, not deep-merged. Each absent field keeps its old value. |
| `PreferencesStore.MergeIdentityAndIdempotence` | src/hooks/useUserPreferences.ts:49-51 | Merging the empty update is the identity, and merging the same update twice equals merging it once. |
| `PreferencesStore.MergeSequential` | src/hooks/useUserPreferences.ts:49-51 | Two successive partial updates equal one merge of their field-wise combination, with the later update winning. |
| `PreferencesStore.Persist` | src/hooks/useUserPreferences.ts:43 | The record written to storage carries every field. |
| `PreferencesStore.Load` | src/hooks/useUserPreferences.ts:31-39 | An absent record loads as exactly the defaults. For a parsed record, each of the five fields (weights, watched roles, alerts, default time range, compact mode) takes the stored value when present and the default when absent. |
| `PreferencesStore.LoadPersistRoundTrip` | src/hooks/useUserPreferences.ts:31-47 | A record that a session wrote reloads as exactly that session's preferences. |
| `PreferencesStore.LoadEmptyRecord` | src/hooks/useUserPreferences.ts:34-35 | A parsed empty record loads as the defaults, the same as an absent one. |
| `PreferencesStore.UpdateWeights` | src/hooks/useUserPreferences.ts:53-59 | Weights within 0.01 of totalling 1 are stored unchanged. Otherwise they are stored rescaled by their total, so they sum to exactly 1. The stored weights are always within tolerance, and the other four fields are untouched. |
| `PreferencesStore.UpdateWeightsIdempotent` | src/hooks/useUserPreferences.ts:53-59 | Re-storing the stored weights is a no-op. Storing weights already held within tolerance changes nothing. |
| `PreferencesStore.UpdateWeightsNonNegative` | src/hooks/useUserPreferences.ts:53-59 | Non-negative input with a positive total gives non-negative stored weights whose total is within 0.01 of 1. |
| `PreferencesStore.Reset` | src/hooks/useUserPreferences.ts:61 | Reset gives the same preferences as loading with no stored record. Its weights are non-negative and total 1. |
| `PreferencesStore.ResetForgetsState` | src/hooks/useUserPreferences.ts:61 | Any two prior states reset to the same preferences, and a reset session reloads as the defaults. |
| `Settings.Without` | src/components/SettingsSheet.tsx:26 | The filtered list holds exactly the keys of the input other than the excluded one. Only membership is stated; the order `filter` keeps is pinned for the concrete key list by `OtherPair`, and nothing downstream depends on it. |
| `Settings.OtherKeys` | src/components/SettingsSheet.tsx:26 | There are exactly two other keys. Neither is the dragged key, and together they cover every other key. |
| `Settings.SumOver` | src/components/SettingsSheet.tsx:27 | The `reduce` that adds the weights of a list of keys to an initial sum (its value is pinned by `OtherTotalIsRest`). |
| `Settings.OtherTotal` | src/components/SettingsSheet.tsx:27 | `otherTotal`: the reduce over the two other keys starting from 0, which `OtherTotalIsRest` shows is the total less the dragged weight. |
| `Settings.ClampAtZero` | src/components/SettingsSheet.tsx:33 | `Math.max(0, x)`: the result is at least 0 and at least `x`, and it is one of the two. |
| `Settings.OtherTotalIsRest` | src/components/SettingsSheet.tsx:27 | The reduced other total is the full total minus the dragged weight. |
| `Settings.AbsorbAll` | src/components/SettingsSheet.tsx:32-34 | The loop gives each listed key `max(0, old - delta * old / otherTotal)` and leaves unlisted keys as they were. |
| `Settings.Share` | src/components/SettingsSheet.tsx:33 | The unclamped new weight of key `k`, its old weight less its proportional share of the change, equal to the old weight times the common factor `Scale` (`SharesAreScaled`). |
| `Settings.Redistribute` | src/components/SettingsSheet.tsx:20-35 | The dragged key takes the new value. If the others total more than 0, each other weight is its clamped proportional share and so non-negative. Otherwise the others are left unchanged. |
| `Settings.RedistributePreservesTotal` | src/components/SettingsSheet.tsx:23-34 | When the other two weights total more than 0 and neither clamp fires, the candidate total equals the old total. (With the other two at 0 nothing clamps, but the total becomes the new value.) |
| `Settings.RedistributeKeepsRatio` | src/components/SettingsSheet.tsx:31-34 | When neither clamp fires, each other weight becomes its old value times one common factor, `(otherTotal - delta) / otherTotal`, the same for both keys. |
| `Settings.CommonFactorKeepsRatio` | src/components/SettingsSheet.tsx:33 | Two weights multiplied by the same factor keep their cross ratio, so the proportional shares leave the ratio of the two other weights unchanged. |
| `Settings.RedistributeKeepsCrossRatio` | src/components/SettingsSheet.tsx:31-34 | When neither clamp fires, the two other weights after the drag stand in the same ratio (cross-multiplied) as before it. |
| `Settings.UnclampedIffRoom` | src/components/SettingsSheet.tsx:31-34 | Take non-negative weights whose other two total more than 0. Neither clamp fires if and only if the new value is at most the old total. |
| `Settings.RoomMeansUnclamped` | src/components/SettingsSheet.tsx:33 | A new value no larger than the old total gives no negative share. |
| `Settings.OvershootClamps` | src/components/SettingsSheet.tsx:33 | A new value larger than the old total makes some share negative, so a clamp fires. |
| `Settings.RedistributeZeroOthers` | src/components/SettingsSheet.tsx:31 | For non-negative weights whose others total 0, both others are 0 and stay 0. No division happens, and the candidate total is the dragged value. |
| `Settings.CandidateNonNegative` | src/components/SettingsSheet.tsx:20-35 | From non-negative weights, a positive new value gives a non-negative candidate with a positive total. |
| `Settings.HandleWeightChange` | src/components/SettingsSheet.tsx:20-38 | A drag from non-negative weights stores non-negative weights within tolerance of totalling 1. No other field changes. |
| `Settings.HandleWeightChangeStores` | src/components/SettingsSheet.tsx:37 | The stored weights are the normalization of the redistributed candidate, and that candidate has a positive total. |
| `Settings.CandidateWithRoom` | src/components/SettingsSheet.tsx:21-34 | Start from non-negative weights totalling 1 and move one weight to at most 1. No clamp fires, the candidate still totals 1 so normalization keeps it, and the common factor takes the two others from their old total to `1 - newValue`. |
| `Settings.CandidateWithoutOthers` | src/components/SettingsSheet.tsx:31-37 | Start from weights totalling 1 whose others are 0. Any new value in (0, 0.99) is rescaled back to the starting weights. |
| `Settings.RescaleSingle` | src/hooks/useUserPreferences.ts:53-57 | Weights that put their whole total `v`, with 0 < v < 0.99, on one key are rescaled to put exactly 1 on that key and 0 on the others. |
| `Settings.DragWithOthers` | src/components/SettingsSheet.tsx:20-38 | From weights totalling 1 whose others are positive, the stored weights are exactly the redistributed candidate. |
| `Settings.DragWithoutOthers` | src/components/SettingsSheet.tsx:20-38 | From weights totalling 1 whose others are 0, a slider move leaves the weights as they were. |
| `Settings.DragFromUnitTotal` | src/components/SettingsSheet.tsx:20-38 | An in-domain slider move from non-negative weights totalling 1 keeps the total at exactly 1. If the others total more than 0, the dragged weight is exactly value/100 and the stored weights are the unrescaled candidate. Otherwise the weights are unchanged. |
| `Settings.WeightSliderRange` | src/components/SettingsSheet.tsx:56-95 | Every value the weight sliders can send (10..80, or 5..50 for culture, in steps of 5) is a multiple of 5 and gives a weight between 0.05 and 0.8. |
| `Settings.WeightSlider` | src/components/SettingsSheet.tsx:56-95 | The domains of the three weight sliders: 10..80 in steps of 5 for demand and supply, 5..50 in steps of 5 for culture (their consequence for weights is `WeightSliderRange`). |
| `Settings.ThresholdSlider` | src/components/SettingsSheet.tsx:157-166 | The alert threshold slider: 1..20 in steps of 1, the range `Consistent` keeps the threshold in. |
| `Settings.SetCompactMode` | src/components/SettingsSheet.tsx:109-112 | The compact switch changes `compactMode` and nothing else. |
| `Settings.SetDefaultTimeRange` | src/components/SettingsSheet.tsx:117-120 | The range picker changes `defaultTimeRange` and nothing else. |
| `Settings.SetAlertsEnabled` | src/components/SettingsSheet.tsx:143-148 | The alerts switch yields an alerts record that differs only in `enabled`. Nothing outside `alerts` changes. |
| `Settings.SetAlertThreshold` | src/components/SettingsSheet.tsx:157-166 | The threshold slider yields an alerts record that differs only in `threshold`. Nothing outside `alerts` changes. |
| `Settings.Apply` | src/components/SettingsSheet.tsx:17-38 | Any permitted panel action keeps the weights non-negative. |
| `Settings.Run` | src/components/SettingsSheet.tsx:17-38 | A sequence of permitted actions keeps the weights non-negative. |
| `Settings.ApplyKeepsConsistent` | src/components/SettingsSheet.tsx:20-166 | Each permitted action preserves three facts: non-negative weights, a total of exactly 1, and a threshold in 1..20. |
| `Settings.RunKeepsConsistent` | src/components/SettingsSheet.tsx:20-180 | Every session of permitted actions started from a consistent state ends in a consistent state. |
| `Settings.DefaultsConsistent` | src/hooks/useUserPreferences.ts:11-17 | The defaults are a consistent state, so sessions that start from them stay consistent. |
| `Settings.DefaultsBalanced` | src/hooks/useUserPreferences.ts:11-17 | The defaults are consistent and all three default weights are positive. |
| `Settings.RedistributeKeepsPositive` | src/components/SettingsSheet.tsx:20-35 | From positive weights totalling 1, a drag to a value below 1 keeps all three weights positive, and the other two total more than 0. |
| `Settings.ApplyKeepsBalanced` | src/components/SettingsSheet.tsx:20-166 | From a consistent state with positive weights, every permitted action keeps that shape, and a drag stores exactly the redistributed candidate, so `updateWeights` does not rescale. |
| `Settings.RunKeepsBalanced` | src/components/SettingsSheet.tsx:20-180 | Every session of permitted actions from such a state, in particular from the defaults, ends in such a state. |
| `Composite.JsRound` | src/lib/types.ts:56-60 | `Math.round` returns the integer `n` with `n - 1/2 <= x < n + 1/2`. |
| `Composite.WeightedSum` | src/lib/types.ts:57-59 | The unrounded composite: each sub-index score times its weight, summed (bounded by `CompositeInRange`). |
| `Composite.CalcComposite` | src/lib/types.ts:52-61 | Ten times the composite is an integer. The weighted sum lies in `[r - 0.05, r + 0.05)`, so the composite is within 0.05 of it. |
| `Composite.CompositeUnique` | src/lib/types.ts:56-60 | Any one-decimal number within that half-open window is the composite. This is rounding half-up to one decimal. |
| `Composite.CompositeReadsOnlyScores` | src/lib/types.ts:52-61 | Inputs with equal `.score` fields give equal composites, whatever their `overall` and `delta30d` values. |
| `Composite.CompositeInRange` | src/lib/types.ts:52-61 | With scores in 0..100 and non-negative weights totalling 1, the composite lies in 0..100, although nothing is clamped. |
| `Composite.CompositeExample` | src/lib/types.ts:52-61 | Scores 72/65/58 under weights 0.4/0.4/0.2 give 66.4. |
| `Composite.CompositeAboveRangeWithinTolerance` | src/lib/types.ts:52-61 | Weights 0.005 inside the 0.01 tolerance, (0.4, 0.4, 0.205), which `updateWeights` stores unchanged, give a composite of 100.5 for three scores of 100: the 0..100 bound needs a total of exactly 1. |
| `Dashboard.IndexCalcComposite` | src/pages/Index.tsx:39-41 | The `Index.tsx` calculator agrees with the typed one on every input. |
| `Dashboard.Mock` | src/pages/Index.tsx:12-36 | The `FWI_DATA` constant, value for value (its shape is stated by `SeriesAligned`, `MoversHaveKnownKinds` and `MockWeightsAreDefaults`). |
| `Dashboard.ParseKind` | src/lib/types.ts:27-32 | A mover type string parses only to the sub-index whose name it is. |
| `Dashboard.ParseKindRoundTrip` | src/lib/types.ts:27-32 | Each sub-index name parses back to that sub-index, and a string parses if and only if it is one of the three names. |
| `Dashboard.MoversHaveKnownKinds` | src/pages/Index.tsx:29-35 | Every mover in the mock dataset has type demand, supply or culture. |
| `Dashboard.SeriesAligned` | src/pages/Index.tsx:16-20 | There are 12 months, and each of the four series has one entry per month. |
| `Dashboard.MockWeightsAreDefaults` | src/pages/Index.tsx:14 | The dataset's weights equal the preference defaults, are non-negative and total 1. |
| `Dashboard.HeroScoreDiffersFromOverall` | src/pages/Index.tsx:22-41 | The hero score for the mock day is 66.4, which differs from the hard-coded `today.overall` of 68.4. |

## Left out

- React wiring is not modelled: the context, `useState`, `useEffect` and the error thrown when the provider is missing (src/hooks/useUserPreferences.ts:26,41-42,44-47,72-76). The store is modelled as a value.
- `localStorage` and JSON are not modelled. A load takes an `Option` of a parsed partial record. `None` covers an absent record, an empty string, a parse error and rendering without a `window`. Failed writes are swallowed by the source and have no effect on state.
- A stored record's field values are assumed to be well typed. JSON could put a value of the wrong type, or an extra key, into the loaded object; the model does not represent that.
- An update that sets a field explicitly to `undefined` is not modelled. A JavaScript spread would copy the `undefined`; the model treats every field as either absent or present with a value.
- Weights.Normalize: requires a nonzero total. At a total of 0 the source divides by zero: a weight of 0 becomes NaN and a nonzero weight becomes plus or minus Infinity (as for (0.5, -0.5, 0)). Reals represent neither. Negative totals are divided exactly as in the source.
- Settings.HandleWeightChange: requires non-negative current weights and a positive slider value. Together these keep the candidate total nonzero. The panel's sliders never send less than 5, and the session invariant shows that weights stay non-negative from the defaults. A hand-edited stored record with negative weights is outside the model.
- IEEE-754 rounding is not modelled. The source uses the 0.01 tolerance to absorb floating-point drift; with exact reals the totals are exactly 1. Totals lying exactly 0.01 from 1 can fall on either side of the test in doubles (0.4 + 0.4 + 0.21 is rescaled by the source but kept by the model), so the model's verdict at the tolerance boundary is the exact-real one.
- The percentage labels (`Math.round(weight * 100)`) and the slider positions derived from the weights are presentation, so they are not modelled.
- Chart rendering, the counter animations, the gauge geometry, modals, drawers, navigation, the loading spinner, the insight cards and the data-wiring text are not modelled. They are presentation or static content with no logic of the core.
- The `asOf` date and the movers' notes are carried as plain strings, with no date or text semantics.

=== FILE: composite.dfy ===
/** The composite score of src/lib/types.ts: the three sub-index scores weighted and
    summed, then rounded to one decimal with JavaScript's `Math.round`. */
module Composite {
  import opened Weights

  datatype SubScore = SubScore(score: real, delta30d: real)

  /** `TodayData`: the headline values of one day and its three sub-scores. */
  datatype TodayData = TodayData(
    overall: real,
    delta30d: real,
    demand: SubScore,
    supply: SubScore,
    culture: SubScore)

  /** The unrounded composite. */
  function WeightedSum(d: TodayData, w: WeightSet): real
  {
    d.demand.score * w.demand + d.supply.score * w.supply + d.culture.score * w.culture
  }

  /** `Math.round(x)`: the nearest integer, halves rounding towards +infinity. */
  function JsRound(x: real): (n: int)
    ensures n as real - 0.5 <= x < n as real + 0.5
  {
    (x + 0.5).Floor
  }

  /** Only one integer lies within half a unit of `x` in the half-open sense. */
  lemma JsRoundUnique(x: real, m: int)
    requires m as real - 0.5 <= x < m as real + 0.5
    ensures m == JsRound(x)
  {
  }

  /** `calcComposite(data, weights)`: a number with at most one decimal that lies
      within 0.05 of the weighted sum, halves going up. No clamping and no check
      of the weights. */
  function CalcComposite(d: TodayData, w: WeightSet): (r: real)
    ensures (r * 10.0).Floor as real == r * 10.0
    ensures r - 0.05 <= WeightedSum(d, w) < r + 0.05
    ensures Abs(r - WeightedSum(d, w)) <= 0.05
  {
    JsRound(WeightedSum(d, w) * 10.0) as real / 10.0
  }

  /** The composite is the only one-decimal number with that property: any `q`
      whose tenfold is an integer and with `q - 0.05 <= sum < q + 0.05` is it. */
  lemma CompositeUnique(d: TodayData, w: WeightSet, q: real)
    requires (q * 10.0).Floor as real == q * 10.0
    requires q - 0.05 <= WeightedSum(d, w) < q + 0.05
    ensures q == CalcComposite(d, w)
  {
    var m := (q * 10.0).Floor;
    var s := WeightedSum(d, w);
    assert m as real - 0.5 <= s * 10.0 < m as real + 0.5;
    JsRoundUnique(s * 10.0, m);
  }

  /** Only the three `.score` fields are read: the overall value and every 30-day
      delta leave the composite alone. */
  lemma CompositeReadsOnlyScores(d: TodayData, e: TodayData, w: WeightSet)
    requires d.demand.score == e.demand.score && d.supply.score == e.supply.score
    requires d.culture.score == e.culture.score
    ensures CalcComposite(d, w) == CalcComposite(e, w)
  {
    var a, b, c := d.demand.score * w.demand, d.supply.score * w.supply, d.culture.score * w.culture;
    assert WeightedSum(d, w) == a + b + c;
    assert WeightedSum(e, w) == a + b + c;
  }

  /** Scores in 0..100 under non-negative weights totalling 1 give a composite in
      0..100, although the function itself clamps nothing. */
  lemma CompositeInRange(d: TodayData, w: WeightSet)
    requires 0.0 <= d.demand.score <= 100.0 && 0.0 <= d.supply.score <= 100.0
    requires 0.0 <= d.culture.score <= 100.0
    requires NonNegative(w) && Total(w) == 1.0
    ensures 0.0 <= CalcComposite(d, w) <= 100.0
  {
    WeightedSumInRange(d, w);
  }

  lemma WeightedSumInRange(d: TodayData, w: WeightSet)
    requires 0.0 <= d.demand.score <= 100.0 && 0.0 <= d.supply.score <= 100.0
    requires 0.0 <= d.culture.score <= 100.0
    requires NonNegative(w) && Total(w) == 1.0
    ensures 0.0 <= WeightedSum(d, w) <= 100.0
  {
    var a := BoundedTerm(d.demand.score, w.demand);
    var b := BoundedTerm(d.supply.score, w.supply);
    var c := BoundedTerm(d.culture.score, w.culture);
    AddBounds(a, b, c, w.demand, w.supply, w.culture);
  }

  lemma BoundedTerm(score: real, weight: real) returns (product: real)
    requires 0.0 <= score <= 100.0 && 0.0 <= weight
    ensures product == score * weight
    ensures 0.0 <= product <= 100.0 * weight
  {
    product := score * weight;
    NonNegativeProduct(score, weight);
    NonNegativeProduct(100.0 - score, weight);
    assert (100.0 - score) * weight == 100.0 * weight - product;
  }

  lemma AddBounds(a: real, b: real, c: real, x: real, y: real, z: real)
    requires 0.0 <= a <= 100.0 * x && 0.0 <= b <= 100.0 * y && 0.0 <= c <= 100.0 * z
    ensures 0.0 <= a + b + c <= 100.0 * (x + y + z)
  {
  }

  /** Scores 72, 65 and 58 under weights 0.4, 0.4 and 0.2 give 66.4, whatever the
      overall value and the deltas. */
  lemma CompositeExample(overall: real, delta30d: real, dd: real, sd: real, cd: real)
    ensures CalcComposite(
      TodayData(overall, delta30d, SubScore(72.0, dd), SubScore(65.0, sd), SubScore(58.0, cd)),
      WeightSet(0.4, 0.4, 0.2)) == 66.4
  {
    var d := TodayData(overall, delta30d, SubScore(72.0, dd), SubScore(65.0, sd), SubScore(58.0, cd));
    var w := WeightSet(0.4, 0.4, 0.2);
    assert WeightedSum(d, w) == 66.4;
    assert (66.4 * 10.0).Floor == 664;
    CompositeUnique(d, w, 66.4);
  }

  /** Weights inside the 0.01 tolerance, which `updateWeights` stores unchanged, can
      take the composite past 100: three perfect scores under 0.4/0.4/0.205 give 100.5. */
  lemma CompositeAboveRangeWithinTolerance(overall: real, delta30d: real, dd: real, sd: real, cd: real)
    ensures WithinTolerance(WeightSet(0.4, 0.4, 0.205))
    ensures CalcComposite(
      TodayData(overall, delta30d, SubScore(100.0, dd), SubScore(100.0, sd), SubScore(100.0, cd)),
      WeightSet(0.4, 0.4, 0.205)) == 100.5
  {
    var d := TodayData(overall, delta30d, SubScore(100.0, dd), SubScore(100.0, sd), SubScore(100.0, cd));
    var w := WeightSet(0.4, 0.4, 0.205);
    assert WeightedSum(d, w) == 100.5;
    assert (100.5 * 10.0).Floor == 1005;
    CompositeUnique(d, w, 100.5);
  }
}

=== FILE: dashboard.dfy ===
/** The mock dataset of src/pages/Index.tsx and the copy of the composite
    calculator that the hero widget imports from there. */
module Dashboard {
  import opened Wrappers
  import opened Weights
  import opened Composite
  import PreferencesStore

  datatype MonthlyData = MonthlyData(
    months: seq<string>,
    overall: seq<real>,
    demand: seq<real>,
    supply: seq<real>,
    culture: seq<real>)

  /** A signals-table entry. The constant is untyped in the source, so the
      sub-index of a mover is kept as the string it is written with. */
  datatype Mover = Mover(skill: string, kind: string, changePct: real, note: string)

  datatype FwiData = FwiData(
    asOf: string,
    weights: WeightSet,
    monthly: MonthlyData,
    today: TodayData,
    movers: seq<Mover>)

  /** `FWI_DATA`. */
  const Mock: FwiData := FwiData(
    "2025-09-23",
    WeightSet(0.4, 0.4, 0.2),
    MonthlyData(
      ["2024-10", "2024-11", "2024-12", "2025-01", "2025-02", "2025-03",
       "2025-04", "2025-05", "2025-06", "2025-07", "2025-08", "2025-09"],
      [52.0, 54.0, 56.0, 57.0, 59.0, 61.0, 62.0, 63.0, 65.0, 66.0, 67.0, 68.0],
      [55.0, 57.0, 58.0, 60.0, 62.0, 64.0, 64.0, 66.0, 68.0, 70.0, 71.0, 72.0],
      [49.0, 51.0, 54.0, 55.0, 57.0, 58.0, 60.0, 61.0, 63.0, 64.0, 64.0, 65.0],
      [44.0, 46.0, 47.0, 49.0, 50.0, 53.0, 54.0, 54.0, 56.0, 56.0, 57.0, 58.0]),
    TodayData(68.4, 4.2, SubScore(72.0, 6.0), SubScore(65.0, 3.0), SubScore(58.0, 5.0)),
    [ Mover("Fractional CMO", "demand", 12.0, "Spike in enterprise RFPs"),
      Mover("AI Product Consultant", "supply", 9.0, "Upwork listings up"),
      Mover("Fractional CFO", "demand", 8.0, "Series A/B hiring"),
      Mover("Data Clean Rooms", "culture", 7.0, "Search interest rising"),
      Mover("Agentic Workflow PM", "demand", 6.0, "Retail media pilots") ])

  /** The `calcComposite(d, w)` of Index.tsx, written out on its own: it computes
      the same value as the typed calculator on every input. */
  function IndexCalcComposite(d: TodayData, w: WeightSet): (r: real)
    ensures r == CalcComposite(d, w)
  {
    var a, b, c := d.demand.score * w.demand, d.supply.score * w.supply, d.culture.score * w.culture;
    assert WeightedSum(d, w) == a + b + c;
    var x := (a + b + c) * 10.0;
    assert x == WeightedSum(d, w) * 10.0;
    assert (x + 0.5).Floor == JsRound(WeightedSum(d, w) * 10.0);
    (x + 0.5).Floor as real / 10.0
  }

  /** The spelling of a sub-index in the `Mover.type` union. */
  function KeyName(k: Key): string
  {
    match k
    case Demand => "demand"
    case Supply => "supply"
    case Culture => "culture"
  }

  /** Reads a mover's type as one of the three sub-indices, if it is one. */
  function ParseKind(s: string): (r: Option<Key>)
    ensures r.Some? ==> KeyName(r.value) == s
  {
    if s == "demand" then Some(Demand)
    else if s == "supply" then Some(Supply)
    else if s == "culture" then Some(Culture)
    else None
  }

  /** Every sub-index name reads back as that sub-index, so a string is a valid
      mover type exactly when it is one of the three names. */
  lemma ParseKindRoundTrip(k: Key, s: string)
    ensures ParseKind(KeyName(k)) == Some(k)
    ensures ParseKind(s).Some? <==> (s == KeyName(Demand) || s == KeyName(Supply) || s == KeyName(Culture))
  {
  }

  /** Every mover of the mock dataset has a type the `Mover` union admits. */
  lemma MoversHaveKnownKinds()
    ensures forall i :: 0 <= i < |Mock.movers| ==> ParseKind(Mock.movers[i].kind).Some?
  {
  }

  /** The four monthly series run over the same twelve months. */
  lemma SeriesAligned()
    ensures |Mock.monthly.months| == 12
    ensures |Mock.monthly.overall| == |Mock.monthly.months|
    ensures |Mock.monthly.demand| == |Mock.monthly.months|
    ensures |Mock.monthly.supply| == |Mock.monthly.months|
    ensures |Mock.monthly.culture| == |Mock.monthly.months|
  {
  }

  /** The dataset's weights are the preference defaults and total exactly 1. */
  lemma MockWeightsAreDefaults()
    ensures Mock.weights == PreferencesStore.Defaults.weights
    ensures NonNegative(Mock.weights) && Total(Mock.weights) == 1.0
  {
  }

  /** The hero widget's score for today is 66.4, which is not the hard-coded
      `today.overall` of 68.4: the stored headline and the computed one disagree. */
  lemma HeroScoreDiffersFromOverall()
    ensures IndexCalcComposite(Mock.today, Mock.weights) == 66.4
    ensures IndexCalcComposite(Mock.today, Mock.weights) != Mock.today.overall
  {
    CompositeExample(68.4, 4.2, 6.0, 3.0, 5.0);
  }
}

=== FILE: preferences.dfy ===
/** The user-preferences store of src/hooks/useUserPreferences.ts, as a value
    transformed by pure functions: the defaults, the shallow-merge partial update,
    `updateWeights`, reset, and hydration from an optional stored record. */
module PreferencesStore {
  import opened Wrappers
  import opened Weights

  datatype TimeRange = Last30Days | Last90Days | Last12Months | YearToDate

  datatype Alerts = Alerts(enabled: bool, threshold: int)

  /** The `UserPreferences` record. */
  datatype Preferences = Preferences(
    weights: WeightSet,
    watchedRoles: seq<string>,
    alerts: Alerts,
    defaultTimeRange: TimeRange,
    compactMode: bool)

  /** A `Partial<UserPreferences>`: each field may be present or absent. A stored
      record, once parsed, has the same shape. */
  datatype Update = Update(
    weights: Option<WeightSet>,
    watchedRoles: Option<seq<string>>,
    alerts: Option<Alerts>,
    defaultTimeRange: Option<TimeRange>,
    compactMode: Option<bool>)

  /** The empty partial record `{}`. */
  const NoChange: Update := Update(None, None, None, None, None)

  const DefaultWeights: WeightSet := WeightSet(0.4, 0.4, 0.2)

  /** `defaultPreferences`. */
  const Defaults: Preferences := Preferences(
    DefaultWeights,
    ["Fractional CMO", "Fractional CFO", "AI Strategy Consultant"],
    Alerts(true, 5),
    Last12Months,
    false)

  /** The default weights are non-negative and total exactly 1, and the other
      defaults are alerts on at threshold 5, the 12-month range and no compact mode. */
  lemma DefaultsWellFormed()
    ensures NonNegative(Defaults.weights) && Total(Defaults.weights) == 1.0
    ensures Defaults.weights.Get(Demand) == 0.4 && Defaults.weights.Get(Supply) == 0.4
    ensures Defaults.weights.Get(Culture) == 0.2
    ensures Defaults.alerts.enabled && Defaults.alerts.threshold == 5
    ensures Defaults.defaultTimeRange == Last12Months && !Defaults.compactMode
    ensures |Defaults.watchedRoles| == 3
  {
  }

  /** `{ ...p, ...u }`: every field present in `u` replaces the old one wholesale
      (`alerts` included, with no deep merge); every absent field keeps its value. */
  function Merge(p: Preferences, u: Update): (r: Preferences)
    ensures u.weights.Some? ==> r.weights == u.weights.value
    ensures u.weights.None? ==> r.weights == p.weights
    ensures u.watchedRoles.Some? ==> r.watchedRoles == u.watchedRoles.value
    ensures u.watchedRoles.None? ==> r.watchedRoles == p.watchedRoles
    ensures u.alerts.Some? ==> r.alerts == u.alerts.value
    ensures u.alerts.None? ==> r.alerts == p.alerts
    ensures u.defaultTimeRange.Some? ==> r.defaultTimeRange == u.defaultTimeRange.value
    ensures u.defaultTimeRange.None? ==> r.defaultTimeRange == p.defaultTimeRange
    ensures u.compactMode.Some? ==> r.compactMode == u.compactMode.value
    ensures u.compactMode.None? ==> r.compactMode == p.compactMode
  {
    Preferences(
      u.weights.GetOr(p.weights),
      u.watchedRoles.GetOr(p.watchedRoles),
      u.alerts.GetOr(p.alerts),
      u.defaultTimeRange.GetOr(p.defaultTimeRange),
      u.compactMode.GetOr(p.compactMode))
  }

  /** `{ ...u, ...v }`: the later partial record wins field by field. */
  function Then(u: Update, v: Update): Update
  {
    Update(
      if v.weights.Some? then v.weights else u.weights,
      if v.watchedRoles.Some? then v.watchedRoles else u.watchedRoles,
      if v.alerts.Some? then v.alerts else u.alerts,
      if v.defaultTimeRange.Some? then v.defaultTimeRange else u.defaultTimeRange,
      if v.compactMode.Some? then v.compactMode else u.compactMode)
  }

  /** Merging `{}` changes nothing, and merging the same update twice is the same
      as merging it once. */
  lemma MergeIdentityAndIdempotence(p: Preferences, u: Update)
    ensures Merge(p, NoChange) == p
    ensures Merge(Merge(p, u), u) == Merge(p, u)
  {
  }

  /** Two successive partial updates act as their combined partial update. */
  lemma MergeSequential(p: Preferences, u: Update, v: Update)
    ensures Merge(Merge(p, u), v) == Merge(p, Then(u, v))
  {
  }

  /** The full record a session writes to storage (`JSON.stringify(preferences)`):
      every field present. */
  function Persist(p: Preferences): (u: Update)
    ensures u.weights.Some? && u.watchedRoles.Some? && u.alerts.Some?
    ensures u.defaultTimeRange.Some? && u.compactMode.Some?
  {
    Update(Some(p.weights), Some(p.watchedRoles), Some(p.alerts),
           Some(p.defaultTimeRange), Some(p.compactMode))
  }

  /** Hydration at start-up. `None` stands for an absent, empty or unparseable
      stored record and yields exactly the defaults; a parsed record is laid over the
      defaults, so its present fields win and its absent ones fall back. */
  function Load(stored: Option<Update>): (r: Preferences)
    ensures stored.None? ==> r == Defaults
    ensures stored.Some? && stored.value.weights.None? ==> r.weights == Defaults.weights
    ensures stored.Some? && stored.value.weights.Some? ==> r.weights == stored.value.weights.value
    ensures stored.Some? && stored.value.alerts.None? ==> r.alerts == Defaults.alerts
    ensures stored.Some? && stored.value.alerts.Some? ==> r.alerts == stored.value.alerts.value
    ensures stored.Some? && stored.value.watchedRoles.None? ==> r.watchedRoles == Defaults.watchedRoles
    ensures stored.Some? && stored.value.watchedRoles.Some? ==> r.watchedRoles == stored.value.watchedRoles.value
    ensures stored.Some? && stored.value.defaultTimeRange.None? ==> r.defaultTimeRange == Defaults.defaultTimeRange
    ensures stored.Some? && stored.value.defaultTimeRange.Some? ==>
      r.defaultTimeRange == stored.value.defaultTimeRange.value
    ensures stored.Some? && stored.value.compactMode.None? ==> r.compactMode == Defaults.compactMode
    ensures stored.Some? && stored.value.compactMode.Some? ==> r.compactMode == stored.value.compactMode.value
  {
    match stored
    case None => Defaults
    case Some(record) => Merge(Defaults, record)
  }

  /** A record written by a session reloads as that session's preferences. */
  lemma LoadPersistRoundTrip(p: Preferences)
    ensures Load(Some(Persist(p))) == p
  {
  }

  /** A parsed but empty record (`{}`, or `null` spread into the defaults) loads as
      the defaults, like an absent one. */
  lemma LoadEmptyRecord()
    ensures Load(Some(NoChange)) == Load(None) == Defaults
  {
  }

  /** `updateWeights`: stores the candidate weights, rescaled by their total when it
      is more than 0.01 away from 1, and touches no other field. */
  function UpdateWeights(p: Preferences, w: WeightSet): (r: Preferences)
    requires Total(w) != 0.0
    ensures WithinTolerance(w) ==> r.weights == w
    ensures !WithinTolerance(w) ==> Total(r.weights) == 1.0
    ensures !WithinTolerance(w) ==> forall k :: r.weights.Get(k) * Total(w) == w.Get(k)
    ensures WithinTolerance(r.weights)
    ensures r.watchedRoles == p.watchedRoles && r.alerts == p.alerts
    ensures r.defaultTimeRange == p.defaultTimeRange && r.compactMode == p.compactMode
  {
    p.(weights := Normalize(w))
  }

  /** Updating the weights twice with the same candidate is the same as once, and
      storing the weights already held changes nothing when they are in tolerance. */
  lemma UpdateWeightsIdempotent(p: Preferences, w: WeightSet)
    requires Total(w) != 0.0
    ensures Total(UpdateWeights(p, w).weights) != 0.0
    ensures UpdateWeights(UpdateWeights(p, w), UpdateWeights(p, w).weights) == UpdateWeights(p, w)
    ensures WithinTolerance(p.weights) ==> UpdateWeights(p, p.weights) == p
  {
    NormalizeIdempotent(w);
  }

  /** From non-negative candidate weights with a positive total, the stored weights
      are non-negative and within 0.01 of totalling 1. */
  lemma UpdateWeightsNonNegative(p: Preferences, w: WeightSet)
    requires NonNegative(w) && Total(w) > 0.0
    ensures NonNegative(UpdateWeights(p, w).weights)
    ensures Abs(Total(UpdateWeights(p, w).weights) - 1.0) <= 0.01
  {
    NormalizeNonNegative(w);
  }

  /** `resetPreferences`: the defaults, whatever the prior state. */
  function Reset(p: Preferences): (r: Preferences)
    ensures r == Load(None)
    ensures Total(r.weights) == 1.0 && NonNegative(r.weights)
  {
    Defaults
  }

  /** Reset forgets everything: any two states reset to the same preferences, and a
      reset session reloads as the defaults. */
  lemma ResetForgetsState(p: Preferences, q: Preferences)
    ensures Reset(p) == Reset(q)
    ensures Load(Some(Persist(Reset(p)))) == Defaults
  {
    LoadPersistRoundTrip(Reset(p));
  }
}

=== FILE: settings.dfy ===
/** The handlers of the settings panel (src/components/SettingsSheet.tsx): the
    proportional redistribution performed when a weight slider moves, the alert,
    compact-mode and time-range toggles, and the slider domains that bound what
    the panel can send. */
module Settings {
  import opened Wrappers
  import opened Weights
  import opened PreferencesStore

  /** `['demand', 'supply', 'culture']`. */
  const AllKeys: seq<Key> := [Demand, Supply, Culture]

  /** `ks.filter(k => k !== key)`. */
  function Without(ks: seq<Key>, key: Key): (r: seq<Key>)
    ensures forall k :: k in r <==> k in ks && k != key
    ensures |r| <= |ks|
  {
    if ks == [] then []
    else if ks[0] == key then Without(ks[1..], key)
    else [ks[0]] + Without(ks[1..], key)
  }

  /** The two keys other than the dragged one, in declaration order. */
  function OtherKeys(key: Key): (ks: seq<Key>)
    ensures |ks| == 2 && key !in ks
    ensures forall k :: k != key ==> k in ks
  {
    Without(AllKeys, key)
  }

  /** `ks.reduce((sum, k) => sum + w[k], acc)`. */
  function SumOver(acc: real, w: WeightSet, ks: seq<Key>): real
    decreases ks
  {
    if ks == [] then acc else SumOver(acc + w.Get(ks[0]), w, ks[1..])
  }

  /** `otherTotal`: the combined weight of the two keys not being dragged. */
  function OtherTotal(w: WeightSet, key: Key): real
  {
    SumOver(0.0, w, OtherKeys(key))
  }

  /** The other total is everything but the dragged weight. */
  lemma OtherTotalIsRest(w: WeightSet, key: Key)
    ensures OtherTotal(w, key) == Total(w) - w.Get(key)
  {
    var ks := OtherKeys(key);
    var (i, j) := OtherPair(key);
    assert ks[1..][1..] == [];
    calc {
      OtherTotal(w, key);
      SumOver(0.0 + w.Get(i), w, ks[1..]);
      SumOver(0.0 + w.Get(i) + w.Get(j), w, ks[1..][1..]);
      w.Get(i) + w.Get(j);
    }
    TotalByParts(w, key, i, j);
  }

  /** The two other keys, named. */
  function OtherPair(key: Key): (pair: (Key, Key))
    ensures OtherKeys(key) == [pair.0, pair.1]
    ensures pair.0 != key && pair.1 != key && pair.0 != pair.1
  {
    match key
    case Demand => assert OtherKeys(key) == [Supply, Culture]; (Supply, Culture)
    case Supply => assert OtherKeys(key) == [Demand, Culture]; (Demand, Culture)
    case Culture => assert OtherKeys(key) == [Demand, Supply]; (Demand, Supply)
  }

  /** Three distinct keys cover the whole set. */
  lemma TotalByParts(w: WeightSet, key: Key, i: Key, j: Key)
    requires key != i && key != j && i != j
    ensures Total(w) == w.Get(key) + w.Get(i) + w.Get(j)
  {
  }

  /** `Math.max(0, x)`. */
  function ClampAtZero(x: real): (r: real)
    ensures 0.0 <= r && x <= r
    ensures r == x || r == 0.0
  {
    if x < 0.0 then 0.0 else x
  }

  /** The weight key `k` would take before the clamp: its old value less its
      proportional share of `delta`, `w[k] - delta * (w[k] / otherTotal)`. */
  function Share(w: WeightSet, k: Key, delta: real, otherTotal: real): real
    requires otherTotal != 0.0
  {
    w.Get(k) - delta * (w.Get(k) / otherTotal)
  }

  /** `otherKeys.forEach(k => { newWeights[k] = Math.max(0, ...) })` applied to `acc`. */
  function AbsorbAll(acc: WeightSet, w: WeightSet, ks: seq<Key>, delta: real, otherTotal: real)
    : (r: WeightSet)
    requires otherTotal > 0.0
    ensures forall k :: k in ks ==> r.Get(k) == ClampAtZero(Share(w, k, delta, otherTotal))
    ensures forall k :: k !in ks ==> r.Get(k) == acc.Get(k)
    decreases ks
  {
    if ks == [] then acc
    else
      var k := ks[0];
      AbsorbAll(acc.With(k, ClampAtZero(Share(w, k, delta, otherTotal))), w, ks[1..], delta, otherTotal)
  }

  /** The common factor by which redistribution scales the other weights before
      the clamp: `(otherTotal - delta) / otherTotal`, with `delta` the change of
      the dragged weight. */
  function Scale(w: WeightSet, key: Key, newValue: real): real
    requires OtherTotal(w, key) > 0.0
  {
    (OtherTotal(w, key) - (newValue - w.Get(key))) / OtherTotal(w, key)
  }

  /** Weight `j` scaled by the common factor, before the clamp. */
  function Scaled(w: WeightSet, key: Key, newValue: real, j: Key): real
    requires OtherTotal(w, key) > 0.0
  {
    w.Get(j) * Scale(w, key, newValue)
  }

  /** Taking a proportional share of `delta` off a weight scales it. */
  lemma ShareIsScaled(a: real, delta: real, t: real)
    requires t != 0.0
    ensures a - delta * (a / t) == a * ((t - delta) / t)
  {
    calc {
      a - delta * (a / t);
      a * (t / t) - a * (delta / t);
      a * ((t - delta) / t);
    }
  }

  lemma SharesAreScaled(w: WeightSet, key: Key, newValue: real)
    requires OtherTotal(w, key) > 0.0
    ensures forall k :: Share(w, k, newValue - w.Get(key), OtherTotal(w, key)) == Scaled(w, key, newValue, k)
  {
    forall k
      ensures Share(w, k, newValue - w.Get(key), OtherTotal(w, key)) == Scaled(w, key, newValue, k)
    {
      ShareIsScaled(w.Get(k), newValue - w.Get(key), OtherTotal(w, key));
    }
  }

  /** The candidate weights `handleWeightChange` passes to `updateWeights`: the
      dragged key takes `newValue`. When the other two total more than 0, each of
      them is scaled by the common factor `Scale`, so that together they absorb
      minus the change in proportion to their shares, and is clamped at 0. When
      they total 0 or less they are left as they were. */
  function Redistribute(w: WeightSet, key: Key, newValue: real): (r: WeightSet)
    ensures r.Get(key) == newValue
    ensures OtherTotal(w, key) > 0.0 ==>
      forall j :: j != key ==> r.Get(j) == ClampAtZero(Scaled(w, key, newValue, j))
    ensures OtherTotal(w, key) <= 0.0 ==> forall j :: j != key ==> r.Get(j) == w.Get(j)
  {
    var delta := newValue - w.Get(key);
    var otherTotal := OtherTotal(w, key);
    var newWeights := w.With(key, newValue);
    if otherTotal > 0.0 then
      SharesAreScaled(w, key, newValue);
      AbsorbAll(newWeights, w, OtherKeys(key), delta, otherTotal)
    else newWeights
  }

  /** Neither `Math.max(0, ...)` fires. */
  predicate Unclamped(w: WeightSet, key: Key, newValue: real)
    requires OtherTotal(w, key) > 0.0
  {
    forall j :: j != key ==> 0.0 <= Scaled(w, key, newValue, j)
  }

  /** Without a clamp, every other weight is its old value times the one common
      factor `Scale`, so the two keep their ratio (`CommonFactorKeepsRatio`). */
  lemma RedistributeKeepsRatio(w: WeightSet, key: Key, newValue: real)
    requires OtherTotal(w, key) > 0.0 && Unclamped(w, key, newValue)
    ensures forall j :: j != key ==> Redistribute(w, key, newValue).Get(j) == Scaled(w, key, newValue, j)
  {
    forall j | j != key
      ensures Redistribute(w, key, newValue).Get(j) == Scaled(w, key, newValue, j)
    {
      assert 0.0 <= Scaled(w, key, newValue, j);
    }
  }

  /** Two weights multiplied by one common factor keep their cross ratio. */
  lemma CommonFactorKeepsRatio(w: WeightSet, r: WeightSet, i: Key, j: Key, f: real)
    requires r.Get(i) == w.Get(i) * f && r.Get(j) == w.Get(j) * f
    ensures SameRatio(r, w, i, j)
  {
    CrossRatio(w.Get(i), w.Get(j), f, r.Get(i), r.Get(j));
  }

  /** Without a clamp, the two other weights keep their ratio. */
  lemma RedistributeKeepsCrossRatio(w: WeightSet, key: Key, newValue: real, i: Key, j: Key)
    requires OtherTotal(w, key) > 0.0 && Unclamped(w, key, newValue) && i != key && j != key
    ensures SameRatio(Redistribute(w, key, newValue), w, i, j)
  {
    RedistributeKeepsRatio(w, key, newValue);
    ScaledKeepsCrossRatio(w, Redistribute(w, key, newValue), key, newValue, i, j);
  }

  lemma ScaledKeepsCrossRatio(w: WeightSet, r: WeightSet, key: Key, newValue: real, i: Key, j: Key)
    requires OtherTotal(w, key) > 0.0
    requires r.Get(i) == Scaled(w, key, newValue, i) && r.Get(j) == Scaled(w, key, newValue, j)
    ensures SameRatio(r, w, i, j)
  {
    CommonFactorKeepsRatio(w, r, i, j, Scale(w, key, newValue));
  }

  lemma ScaleTimesOtherTotal(w: WeightSet, key: Key, newValue: real)
    requires OtherTotal(w, key) > 0.0
    ensures OtherTotal(w, key) * Scale(w, key, newValue) == OtherTotal(w, key) - (newValue - w.Get(key))
  {
  }

  /** Scaling both parts of a total scales the total. */
  lemma ScaledParts(a: real, b: real, f: real, t: real, d: real)
    requires t == a + b && t * f == t - d
    ensures a * f + b * f == t - d
  {
    calc {
      a * f + b * f;
      (a + b) * f;
      t * f;
    }
  }

  /** When no clamp fires, the redistribution keeps the total of the three weights. */
  lemma RedistributePreservesTotal(w: WeightSet, key: Key, newValue: real)
    requires OtherTotal(w, key) > 0.0 && Unclamped(w, key, newValue)
    ensures Total(Redistribute(w, key, newValue)) == Total(w)
  {
    var r := Redistribute(w, key, newValue);
    var t := OtherTotal(w, key);
    var (i, j) := OtherPair(key);
    OtherTotalIsRest(w, key);
    TotalByParts(w, key, i, j);
    TotalByParts(r, key, i, j);
    RedistributeKeepsRatio(w, key, newValue);
    assert r.Get(i) == Scaled(w, key, newValue, i) && r.Get(j) == Scaled(w, key, newValue, j);
    ScaleTimesOtherTotal(w, key, newValue);
    ScaledParts(w.Get(i), w.Get(j), Scale(w, key, newValue), t, newValue - w.Get(key));
    assert r.Get(i) + r.Get(j) == t - (newValue - w.Get(key));
  }

  lemma ProductSign(a: real, f: real)
    requires 0.0 < a
    ensures 0.0 <= a * f <==> 0.0 <= f
  {
  }

  lemma ScaleSign(w: WeightSet, key: Key, newValue: real)
    requires OtherTotal(w, key) > 0.0
    ensures 0.0 <= Scale(w, key, newValue) <==> newValue <= Total(w)
  {
    OtherTotalIsRest(w, key);
  }

  /** For non-negative weights whose other two total more than 0, no clamp fires
      exactly when the new value does not exceed the old total. */
  lemma UnclampedIffRoom(w: WeightSet, key: Key, newValue: real)
    requires NonNegative(w) && OtherTotal(w, key) > 0.0
    ensures Unclamped(w, key, newValue) <==> newValue <= Total(w)
  {
    if newValue <= Total(w) {
      RoomMeansUnclamped(w, key, newValue);
    } else {
      OvershootClamps(w, key, newValue);
    }
  }

  lemma RoomMeansUnclamped(w: WeightSet, key: Key, newValue: real)
    requires NonNegative(w) && OtherTotal(w, key) > 0.0 && newValue <= Total(w)
    ensures Unclamped(w, key, newValue)
  {
    ScaleSign(w, key, newValue);
    forall k | k != key
      ensures 0.0 <= Scaled(w, key, newValue, k)
    {
      NonNegativeProduct(w.Get(k), Scale(w, key, newValue));
    }
  }

  lemma OvershootClamps(w: WeightSet, key: Key, newValue: real)
    requires NonNegative(w) && OtherTotal(w, key) > 0.0 && Total(w) < newValue
    ensures !Unclamped(w, key, newValue)
  {
    var (i, j) := OtherPair(key);
    OtherTotalIsRest(w, key);
    TotalByParts(w, key, i, j);
    ScaleSign(w, key, newValue);
    var m := if 0.0 < w.Get(i) then i else j;
    assert 0.0 < w.Get(m);
    ProductSign(w.Get(m), Scale(w, key, newValue));
    assert Scaled(w, key, newValue, m) < 0.0;
  }

  /** When the two other weights are both 0 (so total 0), nothing is divided: they
      stay 0 and the candidate total is just the dragged weight. */
  lemma RedistributeZeroOthers(w: WeightSet, key: Key, newValue: real)
    requires NonNegative(w) && OtherTotal(w, key) == 0.0
    ensures forall j :: j != key ==> w.Get(j) == 0.0 && Redistribute(w, key, newValue).Get(j) == 0.0
    ensures Total(Redistribute(w, key, newValue)) == newValue
  {
    var (i, j) := OtherPair(key);
    OtherTotalIsRest(w, key);
    TotalByParts(w, key, i, j);
    TotalByParts(Redistribute(w, key, newValue), key, i, j);
  }

  /** `handleWeightChange(key, [value])`: the slider reports a percentage, the
      dragged weight becomes `value / 100`, the others absorb the change, and the
      candidate goes through `updateWeights`. The panel's sliders never go below
      5, and the weights the panel works from are non-negative; under those two
      conditions the candidate total is positive, so the rescale never divides by 0. */
  function HandleWeightChange(p: Preferences, key: Key, value: int): (r: Preferences)
    requires NonNegative(p.weights) && 0 < value
    ensures NonNegative(r.weights) && WithinTolerance(r.weights)
    ensures r.watchedRoles == p.watchedRoles && r.alerts == p.alerts
    ensures r.defaultTimeRange == p.defaultTimeRange && r.compactMode == p.compactMode
  {
    var newWeights := Redistribute(p.weights, key, value as real / 100.0);
    CandidateNonNegative(p.weights, key, value as real / 100.0);
    UpdateWeightsNonNegative(p, newWeights);
    UpdateWeights(p, newWeights)
  }

  /** From non-negative weights, a positive new value gives a non-negative
      candidate with a positive total. */
  lemma CandidateNonNegative(w: WeightSet, key: Key, newValue: real)
    requires NonNegative(w) && 0.0 < newValue
    ensures NonNegative(Redistribute(w, key, newValue))
    ensures Total(Redistribute(w, key, newValue)) > 0.0
  {
    var r := Redistribute(w, key, newValue);
    var (i, j) := OtherPair(key);
    TotalByParts(r, key, i, j);
    if OtherTotal(w, key) <= 0.0 {
      OtherTotalIsRest(w, key);
      TotalByParts(w, key, i, j);
    }
    assert 0.0 <= r.Get(i) && 0.0 <= r.Get(j);
    assert 0.0 <= r.Get(Demand) && 0.0 <= r.Get(Supply) && 0.0 <= r.Get(Culture);
  }

  /** Two weight sets that agree on every key are equal. */
  lemma WeightSetExt(a: WeightSet, b: WeightSet)
    requires forall k :: a.Get(k) == b.Get(k)
    ensures a == b
  {
    assert a.Get(Demand) == b.Get(Demand);
    assert a.Get(Supply) == b.Get(Supply);
    assert a.Get(Culture) == b.Get(Culture);
  }

  /** The range of values a slider can report: `min..max` in steps of `step`. */
  datatype SliderDomain = SliderDomain(min: int, max: int, step: int)
  {
    predicate Allows(v: int)
    {
      0 < step && min <= v <= max && (v - min) % step == 0
    }
  }

  /** Demand and supply slide over 10..80, culture over 5..50, all in steps of 5. */
  function WeightSlider(key: Key): SliderDomain
  {
    match key
    case Demand => SliderDomain(10, 80, 5)
    case Supply => SliderDomain(10, 80, 5)
    case Culture => SliderDomain(5, 50, 5)
  }

  /** The alert threshold slides over 1..20 in steps of 1. */
  const ThresholdSlider: SliderDomain := SliderDomain(1, 20, 1)

  /** Every weight a slider can set is a multiple of 0.05 between 0.05 and 0.8. */
  lemma WeightSliderRange(key: Key, value: int)
    requires WeightSlider(key).Allows(value)
    ensures 0.05 <= value as real / 100.0 <= 0.8
    ensures value % 5 == 0
  {
  }

  /** Dragging a slider from weights that total exactly 1 keeps the total exactly 1.
      When the other two weights total more than 0, `updateWeights` has nothing to
      rescale: the stored weights are the candidate itself and the dragged weight is
      exactly the slider value over 100 (`CandidateWithRoom` says how the others
      move). When they are both 0 the candidate is rescaled back and the drag leaves
      the weights as they were. */
  lemma DragFromUnitTotal(p: Preferences, key: Key, value: int)
    requires NonNegative(p.weights) && Total(p.weights) == 1.0
    requires WeightSlider(key).Allows(value)
    ensures Total(HandleWeightChange(p, key, value).weights) == 1.0
    ensures OtherTotal(p.weights, key) > 0.0 ==>
      HandleWeightChange(p, key, value).weights == Redistribute(p.weights, key, value as real / 100.0)
    ensures OtherTotal(p.weights, key) > 0.0 ==>
      HandleWeightChange(p, key, value).weights.Get(key) == value as real / 100.0
    ensures OtherTotal(p.weights, key) <= 0.0 ==> HandleWeightChange(p, key, value).weights == p.weights
  {
    WeightSliderRange(key, value);
    if OtherTotal(p.weights, key) > 0.0 {
      DragWithOthers(p, key, value);
      CandidateWithRoom(p.weights, key, value as real / 100.0);
    } else {
      DragWithoutOthers(p, key, value);
    }
  }

  /** The weights a drag stores are the normalized candidate. */
  lemma HandleWeightChangeStores(p: Preferences, key: Key, value: int)
    requires NonNegative(p.weights) && 0 < value
    ensures Total(Redistribute(p.weights, key, value as real / 100.0)) > 0.0
    ensures HandleWeightChange(p, key, value).weights
         == Normalize(Redistribute(p.weights, key, value as real / 100.0))
  {
    CandidateNonNegative(p.weights, key, value as real / 100.0);
  }

  lemma DragWithOthers(p: Preferences, key: Key, value: int)
    requires NonNegative(p.weights) && Total(p.weights) == 1.0
    requires 0 < value <= 100 && OtherTotal(p.weights, key) > 0.0
    ensures HandleWeightChange(p, key, value).weights
         == Redistribute(p.weights, key, value as real / 100.0)
  {
    var v := value as real / 100.0;
    assert v <= 1.0;
    HandleWeightChangeStores(p, key, value);
    CandidateWithRoom(p.weights, key, v);
  }

  /** From weights totalling 1, moving one to at most 1 redistributes without a
      clamp: the candidate still totals 1, and the common factor on the other two
      takes their total from its old value to `1 - newValue`. */
  lemma CandidateWithRoom(w: WeightSet, key: Key, v: real)
    requires NonNegative(w) && Total(w) == 1.0 && v <= 1.0 && OtherTotal(w, key) > 0.0
    ensures Unclamped(w, key, v)
    ensures Total(Redistribute(w, key, v)) == 1.0
    ensures Normalize(Redistribute(w, key, v)) == Redistribute(w, key, v)
    ensures OtherTotal(w, key) * Scale(w, key, v) == 1.0 - v
  {
    RoomMeansUnclamped(w, key, v);
    RedistributePreservesTotal(w, key, v);
    NormalizeUnitTotal(Redistribute(w, key, v));
    ScaleTimesOtherTotal(w, key, v);
    OtherTotalIsRest(w, key);
  }

  lemma DragWithoutOthers(p: Preferences, key: Key, value: int)
    requires NonNegative(p.weights) && Total(p.weights) == 1.0
    requires 0 < value <= 80 && OtherTotal(p.weights, key) <= 0.0
    ensures HandleWeightChange(p, key, value).weights == p.weights
  {
    HandleWeightChangeStores(p, key, value);
    CandidateWithoutOthers(p.weights, key, value as real / 100.0);
  }

  /** From weights totalling 1 whose two others are 0, the candidate for any new
      value in (0, 0.99) is rescaled back to the weights it started from. */
  lemma CandidateWithoutOthers(w: WeightSet, key: Key, v: real)
    requires NonNegative(w) && Total(w) == 1.0 && OtherTotal(w, key) <= 0.0
    requires 0.0 < v < 0.99
    ensures Total(Redistribute(w, key, v)) > 0.0
    ensures Normalize(Redistribute(w, key, v)) == w
  {
    OtherTotalIsRest(w, key);
    RedistributeZeroOthers(w, key, v);
    var (i, j) := OtherPair(key);
    TotalByParts(w, key, i, j);
    RescaleSingle(Redistribute(w, key, v), w, key, v);
  }

  /** Weights that put all of a total `v` well below 1 on one key are rescaled to
      put 1 on that key. */
  lemma RescaleSingle(c: WeightSet, w: WeightSet, key: Key, v: real)
    requires 0.0 < v < 0.99
    requires c.Get(key) == v && w.Get(key) == 1.0
    requires forall j :: j != key ==> c.Get(j) == 0.0 && w.Get(j) == 0.0
    ensures Total(c) > 0.0 && Normalize(c) == w
  {
    var (i, j) := OtherPair(key);
    TotalByParts(c, key, i, j);
    var r := Normalize(c);
    assert !WithinTolerance(c);
    forall k ensures r.Get(k) == w.Get(k) {
      Unscale(r.Get(k), v, c.Get(k));
    }
    WeightSetExt(r, w);
  }

  lemma Unscale(x: real, v: real, y: real)
    requires v != 0.0 && x * v == y
    ensures y == v ==> x == 1.0
    ensures y == 0.0 ==> x == 0.0
  {
    assert x == y / v;
  }


  /** Turning compact mode on or off changes that field only. */
  function SetCompactMode(p: Preferences, on: bool): (r: Preferences)
    ensures r == p.(compactMode := on)
  {
    Merge(p, NoChange.(compactMode := Some(on)))
  }

  /** Picking a default time range changes that field only. */
  function SetDefaultTimeRange(p: Preferences, range: TimeRange): (r: Preferences)
    ensures r == p.(defaultTimeRange := range)
  {
    Merge(p, NoChange.(defaultTimeRange := Some(range)))
  }

  /** The alerts switch sends a whole new alerts record that differs from the old
      one in `enabled` only. */
  function SetAlertsEnabled(p: Preferences, enabled: bool): (r: Preferences)
    ensures r.alerts.enabled == enabled && r.alerts.threshold == p.alerts.threshold
    ensures r == p.(alerts := r.alerts)
  {
    Merge(p, NoChange.(alerts := Some(p.alerts.(enabled := enabled))))
  }

  /** The threshold slider sends a whole new alerts record that differs from the
      old one in `threshold` only. */
  function SetAlertThreshold(p: Preferences, threshold: int): (r: Preferences)
    ensures r.alerts.threshold == threshold && r.alerts.enabled == p.alerts.enabled
    ensures r == p.(alerts := r.alerts)
  {
    Merge(p, NoChange.(alerts := Some(p.alerts.(threshold := threshold))))
  }

  /** One user interaction with the settings panel. */
  datatype Action =
    | DragWeight(key: Key, value: int)
    | ToggleAlerts(enabled: bool)
    | MoveThreshold(threshold: int)
    | ToggleCompact(on: bool)
    | PickTimeRange(range: TimeRange)
    | ResetToDefaults

  /** The values the panel's controls can actually send. */
  predicate Permitted(a: Action)
  {
    match a
    case DragWeight(key, value) => WeightSlider(key).Allows(value)
    case MoveThreshold(threshold) => ThresholdSlider.Allows(threshold)
    case _ => true
  }

  function Apply(p: Preferences, a: Action): (r: Preferences)
    requires NonNegative(p.weights) && Permitted(a)
    ensures NonNegative(r.weights)
  {
    match a
    case DragWeight(key, value) => HandleWeightChange(p, key, value)
    case ToggleAlerts(enabled) => SetAlertsEnabled(p, enabled)
    case MoveThreshold(threshold) => SetAlertThreshold(p, threshold)
    case ToggleCompact(on) => SetCompactMode(p, on)
    case PickTimeRange(range) => SetDefaultTimeRange(p, range)
    case ResetToDefaults => DefaultsWellFormed(); Reset(p)
  }

  /** A session of interactions, applied in order. */
  function Run(p: Preferences, actions: seq<Action>): (r: Preferences)
    requires NonNegative(p.weights)
    requires forall a :: a in actions ==> Permitted(a)
    ensures NonNegative(r.weights)
    decreases actions
  {
    if actions == [] then p
    else Run(Apply(p, actions[0]), actions[1..])
  }

  /** What the panel keeps true: non-negative weights totalling exactly 1 and an
      alert threshold the slider can show. */
  predicate Consistent(p: Preferences)
  {
    NonNegative(p.weights) && Total(p.weights) == 1.0 && ThresholdSlider.Allows(p.alerts.threshold)
  }

  lemma ApplyKeepsConsistent(p: Preferences, a: Action)
    requires Consistent(p) && Permitted(a)
    ensures Consistent(Apply(p, a))
  {
    match a
    case DragWeight(key, value) => DragFromUnitTotal(p, key, value);
    case ResetToDefaults => DefaultsWellFormed();
    case _ =>
  }

  /** Every session started from a consistent state, in particular from the
      defaults, ends in a consistent state. */
  lemma {:induction false} RunKeepsConsistent(p: Preferences, actions: seq<Action>)
    requires Consistent(p)
    requires forall a :: a in actions ==> Permitted(a)
    ensures Consistent(Run(p, actions))
    decreases actions
  {
    if actions != [] {
      ApplyKeepsConsistent(p, actions[0]);
      RunKeepsConsistent(Apply(p, actions[0]), actions[1..]);
    }
  }

  lemma DefaultsConsistent()
    ensures Consistent(Defaults)
  {
    DefaultsWellFormed();
  }

  /** All three weights strictly positive. */
  predicate Positive(w: WeightSet)
  {
    0.0 < w.demand && 0.0 < w.supply && 0.0 < w.culture
  }

  /** A consistent state whose weights are all positive: the shape every state of
      a session started from the defaults has. */
  predicate Balanced(p: Preferences)
  {
    Consistent(p) && Positive(p.weights)
  }

  lemma DefaultsBalanced()
    ensures Balanced(Defaults)
  {
    DefaultsWellFormed();
  }

  /** From positive weights totalling 1, moving one weight to a value strictly
      below 1 keeps all three weights positive. */
  lemma RedistributeKeepsPositive(w: WeightSet, key: Key, v: real)
    requires Positive(w) && Total(w) == 1.0 && 0.0 < v < 1.0
    ensures OtherTotal(w, key) > 0.0
    ensures Positive(Redistribute(w, key, v))
  {
    ScalePositive(w, key, v);
    RedistributeKeepsRatio(w, key, v);
    var r := Redistribute(w, key, v);
    var (i, j) := OtherPair(key);
    PositiveProduct(w.Get(i), Scale(w, key, v));
    PositiveProduct(w.Get(j), Scale(w, key, v));
    assert r.Get(i) == Scaled(w, key, v, i) && r.Get(j) == Scaled(w, key, v, j);
    assert 0.0 < r.Get(i) && 0.0 < r.Get(j) && 0.0 < r.Get(key);
  }

  /** From positive weights totalling 1 and a new value below 1, the others total
      more than 0, no clamp fires and the common factor is positive. */
  lemma ScalePositive(w: WeightSet, key: Key, v: real)
    requires Positive(w) && Total(w) == 1.0 && 0.0 < v < 1.0
    ensures OtherTotal(w, key) > 0.0 && Unclamped(w, key, v) && 0.0 < Scale(w, key, v)
  {
    var (i, j) := OtherPair(key);
    OtherTotalIsRest(w, key);
    TotalByParts(w, key, i, j);
    assert OtherTotal(w, key) == w.Get(i) + w.Get(j);
    RoomMeansUnclamped(w, key, v);
    ScaleTimesOtherTotal(w, key, v);
    PositiveFactor(OtherTotal(w, key), Scale(w, key, v), 1.0 - v);
  }

  lemma PositiveFactor(t: real, f: real, s: real)
    requires 0.0 < t && t * f == s && 0.0 < s
    ensures 0.0 < f
  {
  }

  lemma PositiveProduct(a: real, f: real)
    requires 0.0 < a && 0.0 < f
    ensures 0.0 < a * f
  {
  }

  /** From a balanced state every permitted action leads to a balanced state, and
      a slider drag stores exactly the redistributed candidate: `updateWeights`
      has nothing to rescale. */
  lemma ApplyKeepsBalanced(p: Preferences, a: Action)
    requires Balanced(p) && Permitted(a)
    ensures Balanced(Apply(p, a))
    ensures a.DragWeight? ==>
      Apply(p, a).weights == Redistribute(p.weights, a.key, a.value as real / 100.0)
  {
    ApplyKeepsConsistent(p, a);
    match a
    case DragWeight(key, value) =>
      WeightSliderRange(key, value);
      RedistributeKeepsPositive(p.weights, key, value as real / 100.0);
      DragWithOthers(p, key, value);
    case ResetToDefaults => DefaultsBalanced();
    case _ =>
  }

  /** Every session started from a balanced state, in particular from the
      defaults, ends in a balanced state. */
  lemma {:induction false} RunKeepsBalanced(p: Preferences, actions: seq<Action>)
    requires Balanced(p)
    requires forall a :: a in actions ==> Permitted(a)
    ensures Balanced(Run(p, actions))
    decreases actions
  {
    if actions != [] {
      ApplyKeepsBalanced(p, actions[0]);
      RunKeepsBalanced(Apply(p, actions[0]), actions[1..]);
    }
  }
}

=== FILE: weights.dfy ===
/** The three index weights and the rescaling step that `updateWeights` applies
    before storing them (src/hooks/useUserPreferences.ts). */
module Weights {

  /** The three sub-indices a weight is attached to. */
  datatype Key = Demand | Supply | Culture

  /** One weight per sub-index; exact reals stand in for JavaScript numbers. */
  datatype WeightSet = WeightSet(demand: real, supply: real, culture: real)
  {
    /** The weight stored under `k` (`weights[k]`). */
    function Get(k: Key): real
    {
      match k
      case Demand => demand
      case Supply => supply
      case Culture => culture
    }

    /** The set with the weight under `k` replaced (`{ ...weights, [k]: v }`). */
    function With(k: Key, v: real): (r: WeightSet)
      ensures r.Get(k) == v
      ensures forall j :: j != k ==> r.Get(j) == Get(j)
    {
      match k
      case Demand => this.(demand := v)
      case Supply => this.(supply := v)
      case Culture => this.(culture := v)
    }
  }

  function Total(w: WeightSet): real
  {
    w.demand + w.supply + w.culture
  }

  predicate NonNegative(w: WeightSet)
  {
    0.0 <= w.demand && 0.0 <= w.supply && 0.0 <= w.culture
  }

  /** How far the total may drift from 1 before `updateWeights` rescales. */
  const Tolerance: real := 0.01

  function Abs(x: real): real
  {
    if x < 0.0 then -x else x
  }

  /** `Math.abs(total - 1) > 0.01` is false. */
  predicate WithinTolerance(w: WeightSet)
  {
    Abs(Total(w) - 1.0) <= Tolerance
  }

  /** The weights `updateWeights` stores for a candidate set `w`: the set itself when
      its total is within the tolerance of 1, otherwise each weight divided by the
      total. The source divides even when the total is 0 (yielding NaN), so the
      model asks for a nonzero total; a negative total is divided as in the source. */
  function Normalize(w: WeightSet): (r: WeightSet)
    requires Total(w) != 0.0
    ensures WithinTolerance(w) ==> r == w
    ensures !WithinTolerance(w) ==> Total(r) == 1.0
    ensures !WithinTolerance(w) ==> forall k :: r.Get(k) * Total(w) == w.Get(k)
    ensures WithinTolerance(r)
  {
    var total := Total(w);
    if Abs(total - 1.0) > Tolerance then
      DividedTotal(w.demand, w.supply, w.culture, total);
      WeightSet(w.demand / total, w.supply / total, w.culture / total)
    else
      w
  }

  /** Dividing each term by the same nonzero divisor divides the sum. */
  lemma DividedTotal(a: real, b: real, c: real, t: real)
    requires t != 0.0 && t == a + b + c
    ensures a / t + b / t + c / t == 1.0
    ensures (a / t) * t == a && (b / t) * t == b && (c / t) * t == c
  {
    assert a / t + b / t + c / t == (a + b + c) / t;
  }

  /** Normalizing twice is the same as normalizing once. */
  lemma NormalizeIdempotent(w: WeightSet)
    requires Total(w) != 0.0
    ensures Total(Normalize(w)) != 0.0
    ensures Normalize(Normalize(w)) == Normalize(w)
  {
  }

  /** A set is left alone exactly when its total is within the tolerance. */
  lemma NormalizeFixedPoints(w: WeightSet)
    requires Total(w) != 0.0
    ensures Normalize(w) == w <==> WithinTolerance(w)
  {
  }

  /** From non-negative weights with a positive total, the stored weights are
      non-negative. */
  lemma NormalizeNonNegative(w: WeightSet)
    requires NonNegative(w) && Total(w) > 0.0
    ensures NonNegative(Normalize(w))
  {
    var t := Total(w);
    if !WithinTolerance(w) {
      assert Normalize(w) == WeightSet(w.demand / t, w.supply / t, w.culture / t);
      DivisionSign(w.demand, t);
      DivisionSign(w.supply, t);
      DivisionSign(w.culture, t);
    }
  }

  /** The stored weights stand in the same proportions as the candidate ones. */
  lemma NormalizeKeepsRatios(w: WeightSet, j: Key, k: Key)
    requires Total(w) != 0.0
    ensures SameRatio(Normalize(w), w, j, k)
  {
    if !WithinTolerance(w) {
      RescaledRatio(w, j, k);
    }
  }

  lemma RescaledRatio(w: WeightSet, j: Key, k: Key)
    requires Total(w) != 0.0 && !WithinTolerance(w)
    ensures SameRatio(Normalize(w), w, j, k)
  {
    var r := Normalize(w);
    var t, x, y, a, b := Total(w), r.Get(j), r.Get(k), w.Get(j), w.Get(k);
    assert x * t == a && y * t == b;
    CrossRatio(x, y, t, a, b);
  }

  lemma NonNegativeProduct(a: real, b: real)
    requires 0.0 <= a && 0.0 <= b
    ensures 0.0 <= a * b
  {
  }

  /** `a` and `b` have the same ratio between keys `i` and `j` (cross-multiplied, so
      that zero weights need no special case). */
  predicate SameRatio(a: WeightSet, b: WeightSet, i: Key, j: Key)
  {
    a.Get(i) * b.Get(j) == a.Get(j) * b.Get(i)
  }

  lemma DivisionSign(a: real, t: real)
    requires 0.0 <= a && 0.0 < t
    ensures 0.0 <= a / t
  {
  }

  /** Two values scaled by the same factor keep their cross products. */
  lemma CrossRatio(x: real, y: real, t: real, a: real, b: real)
    requires x * t == a && y * t == b
    ensures x * b == y * a
  {
    calc {
      x * b;
      x * (y * t);
      y * (x * t);
      y * a;
    }
  }

  /** Weights that already total exactly 1 are stored unchanged. */
  lemma NormalizeUnitTotal(w: WeightSet)
    requires Total(w) == 1.0
    ensures Normalize(w) == w
  {
  }
}

=== FILE: wrappers.dfy ===
/** The optional-value datatype used for fields that a partial record may leave out,
    and for a stored record that may be absent or unreadable. */
module Wrappers {

  datatype Option<+T> = None | Some(value: T) {

    /** The carried value, or `default` when there is none. */
    function GetOr(default: T): (r: T)
      ensures Some? ==> r == value
      ensures None? ==> r == default
    {
      match this
      case Some(v) => v
      case None => default
    }
  }
}
